=== FILE: README.md ===
# ImageR core, modelled in Dafny

ImageR is an iOS app that sends a text prompt or an image URL to the Replicate
prediction API, polls the prediction until it finishes, shows the resulting image
URLs, and keeps a local list of image records. This project models the parts of
that app that are plain logic once the network, storage and UI are taken away:

- `Replicate` (`replicate.dfy`): `ReplicateService`. It covers the request each call
  builds: URL, `Authorization` and `Content-Type` headers, and the `version`/`input`
  body. It also covers the status codes each call accepts, the errors it throws,
  and the fixed shape of `PredictionResponse`.
- `ViewModel` (`view_model.dfy`): `ImageGeneratorViewModel.generateDisposableImage` and
  `restoreImage`. It covers the submit, the `while` loop that re-fetches by id until
  the status is exactly "succeeded" or "failed", the resolution of output or error,
  and the `isLoading`/`error` flags. `PollSpec` is a recursive reference definition
  of the loop, and `Poll` is the loop itself, proved equal to it.
- `ImageStorage` (`image_storage.dfy`): `GeneratedImage` and `ImageStorageManager`, an
  ordered list of records with append and delete-by-id, written back to its
  persisted copy after every change.
- `Settings` (`settings.dfy`): `SettingsManager`. It covers the quality-level
  parameters, the theme-code style, and the retention rule that trims the store to
  `maxImages`.
- `Wrappers`, `JsonValues`, `Decimal`: `Option`/`Result`, JSON values with exact
  decimal numbers, and the decimal rendering of the status code in
  "Status code: N".

Things outside the program are parameters:

- `parses: string -> bool` is `URL(string:)`.
- `decode: Data -> Option<PredictionResponse>` is `JSONDecoder`.
- `describe: Thrown -> string` is `localizedDescription`.
- Each network round trip is an `Exchange`: a transport error, or the data and
  response received.
- Each poll iteration is a `Tick`: whether `Task.sleep` returned, plus that
  iteration's `Exchange`.

The loop runs over a finite script of ticks. When the script ends before a terminal
status, the call is still in flight. The model reports this as `Pending`, with
`isLoading` still true.

The model follows the code as written, which is narrower than a general prediction
poller in several ways:

- There is no attempt ceiling. `ViewModel.NoAttemptCeiling` shows the loop keeps
  polling for as long as non-terminal statuses arrive.
- Only the two exact strings end the loop. Replicate's own "canceled" status is not
  one of them, so a canceled prediction is polled for ever.
- An error message on a non-terminal response does not stop polling.
- The output is `[String]?`, not a string/array/object union. Every element that
  parses is kept, not only the first.
- There is no multi-image fan-out.
- Restoration sends the image URL as `{"img": url}`, not a base64 data URI.

## Model

| member | source | states |
|---|---|---|
| `Replicate.StatusMessageNamesCode` | ImageR/Services/Replicate.swift:80-82 | the `apiError` message "Status code: N" can be read back to exactly N, so distinct codes give distinct messages |
| `Decimal.IntToString` | ImageR/Services/Replicate.swift:81 | the interpolated status code is a plain decimal numeral: a minus sign exactly when it is negative, then at least one digit with no leading zero unless the code is 0 |
| `Replicate.DisposableCameraInput` | ImageR/Services/Replicate.swift:37-43 | the disposable-camera input has exactly the keys prompt, num_outputs, aspect_ratio, guidance_scale, extra_lora_scale, with the prompt, 4, "16:9", 3.5 and 0.8 |
| `Replicate.FaceRestorationInput` | ImageR/Services/Replicate.swift:50 | the face-restoration input is exactly `{"img": imageURL}` |
| `Replicate.SubmitRequest` | ImageR/Services/Replicate.swift:57-70 | the submission is a POST to base URL + "/predictions"; its headers are exactly Authorization, from which the token reads back, and Content-Type: application/json; its body has exactly the keys version and input, and the input reads back unchanged |
| `Replicate.CheckRequest` | ImageR/Services/Replicate.swift:88-94 | the status check is a GET with no body; the prediction id reads back from its URL; its only header is Authorization, from which the token reads back |
| `Replicate.DisposableCameraRequest` | ImageR/Services/Replicate.swift:35-46 | the disposable-camera submission is a POST to the predictions URL with the token, naming its model version and carrying exactly its five-key input |
| `Replicate.FaceRestorationRequest` | ImageR/Services/Replicate.swift:48-53 | the face-restoration submission is a POST to the predictions URL with the token, naming its model version and carrying exactly the image URL |
| `Replicate.Accept` | ImageR/Services/Replicate.swift:74-85 | a reply succeeds iff it is HTTP, its code is accepted and its body decodes; a transport error gives Transport, a non-HTTP response invalidResponse, a rejected code apiError("Status code: N"), and an accepted code with an undecodable body Decoding |
| `Replicate.RunModel` | ImageR/Services/Replicate.swift:57-86 | nothing goes out when the URL does not parse, otherwise exactly the POST of this token, version and input; submission succeeds iff the URL parses, the reply is HTTP with 200 or 201 and decodes; each failure has its own error: invalidURL, Transport, invalidResponse, apiError("Status code: N") or Decoding |
| `Replicate.CheckPrediction` | ImageR/Services/Replicate.swift:88-108 | a status check succeeds iff the id's URL parses, the reply is HTTP with exactly 200 and decodes; every other code, 201 included, is apiError; the URL, transport and decoding failures give invalidURL, Transport and Decoding |
| `Replicate.CreatedAcceptedOnlyOnSubmit` | ImageR/Services/Replicate.swift:102-104 | a 201 reply is accepted by submission and rejected by a status check with "Status code: 201" |
| `Replicate.RunDisposableCamera` | ImageR/Services/Replicate.swift:35-46 | one POST to the predictions URL carrying the token, the disposable-camera version and its five-key input (none when the URL does not parse, with invalidURL); success iff the reply is HTTP 200 or 201 and decodes, with every other reply handled as a submission reply |
| `Replicate.RunFaceRestoration` | ImageR/Services/Replicate.swift:48-53 | one POST to the predictions URL carrying the token, the face-restoration version and `{"img": imageURL}` (none when the URL does not parse, with invalidURL); success iff the reply is HTTP 200 or 201 and decodes |
| `ViewModel.FetchStep` | ImageR/ImageGeneratorViewModel.swift:34-35 | one iteration: a sleep that throws gives SleepCancelled without a fetch; otherwise the result is exactly the status check of the id, success or error |
| `ViewModel.PollSpecStopsAtFirstTerminal` | ImageR/ImageGeneratorViewModel.swift:32-36 | the loop runs no iteration when the submitted status is terminal; otherwise it stops at the first iteration that throws or fetches "succeeded"/"failed", after every earlier one fetched a non-terminal status; a settled result has a terminal status; every request it sends is the status check of the submitted id; when the URL parses it sends one per iteration except an iteration whose sleep threw, which sends none; when it does not parse it sends nothing |
| `ViewModel.Poll` | ImageR/ImageGeneratorViewModel.swift:32-36 | the `while` loop computes exactly the reference loop: a terminal submission means zero fetches, and every fetch is for `first.id` |
| `ViewModel.NoAttemptCeiling` | ImageR/ImageGeneratorViewModel.swift:33-36 | while fetches keep returning non-terminal statuses, the loop consumes every tick and is still polling: there is no attempt limit |
| `ViewModel.CompactUrls` | ImageR/ImageGeneratorViewModel.swift:39 | a string is among the published URLs iff it is an output that parses as a URL |
| `ViewModel.CompactUrlsAppend` | ImageR/ImageGeneratorViewModel.swift:39 | dropping unparseable outputs works piecewise over concatenation, so the kept URLs keep their order |
| `ViewModel.CompactUrlsKeepsParsed` | ImageR/ImageGeneratorViewModel.swift:39 | when every output parses, the published list is the output list itself |
| `ViewModel.Enter` | ImageR/ImageGeneratorViewModel.swift:24-25 | a call starts with isLoading true and the previous error cleared, images untouched |
| `ViewModel.Resolve` | ImageR/ImageGeneratorViewModel.swift:38-42 | output present: generatedImages is replaced by the parsed outputs and error is left alone; output absent: the prediction's error is published if present, and a prediction with neither changes nothing |
| `ViewModel.Conclude` | ImageR/ImageGeneratorViewModel.swift:38-47 | isLoading ends false on every path that returns; a thrown error is published and leaves the images alone; a call still polling keeps its entry state |
| `ViewModel.SubmitAndPoll` | ImageR/ImageGeneratorViewModel.swift:23-48 | the final state is the conclusion of the call's outcome; the requests sent are exactly what the submission sent followed by the poll loop's status checks of the submitted id |
| `ViewModel.ConcludeKeeps` | ImageR/ImageGeneratorViewModel.swift:38-47 | concluding any call outcome keeps the promises both public calls make about isLoading, error, images and requests |
| `ViewModel.GenerateDisposableImage` | ImageR/ImageGeneratorViewModel.swift:23-48 | isLoading is true only while still polling; thrown errors are published and leave the images alone; images change only through a terminal prediction with output, and are replaced by its parsed outputs; the first request is the disposable-camera submission and the rest are exactly the poll loop's checks of its id; an unparseable base URL sends nothing and publishes invalidURL |
| `ViewModel.RestoreImage` | ImageR/ImageGeneratorViewModel.swift:50-73 | the same promises for the face-restoration call, whose first request is the face-restoration submission |
| `ViewModel.StartingProcessingSucceeded` | ImageR/ImageGeneratorViewModel.swift:29-42 | submit "starting", check "processing", check "succeeded" with one URL: exactly two checks of the id are sent and the URL is published with no error |
| `ImageStorage.NewImage` | ImageR/Config/ImageStorageManager.swift:33-40 | a new record stores the given url and type, prompt and size default to nil, and it carries the fresh id and timestamp it was given |
| `ImageStorage.Load` | ImageR/Config/ImageStorageManager.swift:62-67 | loading takes the persisted list when there is one, otherwise starts empty |
| `ImageStorage.SaveToStorage` | ImageR/Config/ImageStorageManager.swift:69-73 | after saving, the persisted copy equals the in-memory list |
| `ImageStorage.SaveImage` | ImageR/Config/ImageStorageManager.swift:52-55 | saving appends at the end: one more record, the earlier ones unchanged, then persisted |
| `ImageStorage.RemoveById` | ImageR/Config/ImageStorageManager.swift:58 | a record survives `removeAll` iff its id differs from the given one |
| `ImageStorage.DeleteImage` | ImageR/Config/ImageStorageManager.swift:57-60 | the list after deletion is exactly `removeAll` of the id, so the other records keep their order and multiplicity; no record has the id; the list is persisted |
| `ImageStorage.RemoveByIdAppend` | ImageR/Config/ImageStorageManager.swift:58 | removal works piecewise over concatenation, so kept records keep their relative order |
| `ImageStorage.RemoveByIdAbsent` | ImageR/Config/ImageStorageManager.swift:58 | removing an id no record has leaves the list unchanged |
| `ImageStorage.DeleteAbsentKeepsList` | ImageR/Config/ImageStorageManager.swift:57-60 | deleting an image whose id is not stored leaves the list as it was |
| `ImageStorage.DeleteIdempotent` | ImageR/Config/ImageStorageManager.swift:57-60 | deleting the same image twice gives the same store as deleting it once |
| `ImageStorage.SaveFreshKeepsDistinct` | ImageR/Config/ImageStorageManager.swift:52-55 | saving a record with a fresh id keeps all ids distinct |
| `Settings.ParametersFor` | ImageR/Config/SettingsManager.swift:35-38 | quality 0 gives 20 steps and 7.0, 1 gives 30 steps and 7.5, and every other level, out-of-range ones included, gives 50 steps and 8.0 |
| `Settings.ParametersMonotone` | ImageR/Config/SettingsManager.swift:36-37 | over non-negative quality levels, steps and guidance never decrease |
| `Settings.UpdateReplicateSettings` | ImageR/Config/SettingsManager.swift:33-40 | "replicateSettings" is set to exactly num_inference_steps and guidance_scale for the level; every other stored key is untouched |
| `Settings.StyleFor` | ImageR/Config/SettingsManager.swift:46-53 | theme 1 is light and 2 is dark; every other code follows the system |
| `Settings.ThemeCodeRoundTrip` | ImageR/Config/SettingsManager.swift:46-53 | each style is reached from its picker code, and only codes 0, 1 and 2 map back to themselves |
| `Settings.ApplyTheme` | ImageR/Config/SettingsManager.swift:42-54 | with no window nothing happens; otherwise the window takes the theme's style |
| `Settings.Prefix` | ImageR/Config/SettingsManager.swift:61 | `prefix(n)` is the first n records, clamped to the list's length; a negative n, on which Swift traps, is outside its precondition |
| `Settings.RemoveByIdAfterRemoveIds` | ImageR/Config/SettingsManager.swift:62 | one more delete-by-id after a series of them removes exactly one more id |
| `Settings.DropOldest` | ImageR/Config/SettingsManager.swift:60-62 | with distinct ids, deleting the ids of the first n records leaves exactly the rest, in order |
| `Settings.TrimmedKeepsNewest` | ImageR/Config/SettingsManager.swift:58-62 | with distinct ids, cleanup keeps exactly the newest min(maxImages, count) records in order, none at all when maxImages is 0 or less (64-bit overflow aside) |
| `Settings.DeleteEach` | ImageR/Config/SettingsManager.swift:62 | deleting each victim in turn removes exactly the records whose id is a victim's, and persists the result |
| `Settings.CleanupStorageIfNeeded` | ImageR/Config/SettingsManager.swift:56-64 | within the limit nothing changes; above it the records sharing an id with the first count − maxImages are deleted and the store is persisted; with distinct ids the newest records are what remains |
| `Settings.CleanupKeepsNewest` | ImageR/Config/SettingsManager.swift:58-62 | after saving a record with a fresh id into a store with distinct ids, a cleanup with a positive limit keeps that record as the last one |

## Left out

- Network, JSON and sleeping: `URLSession`, `JSONSerialization`, `JSONDecoder`/`JSONEncoder`, `UserDefaults` and `Task.sleep` are external. They appear as the `Exchange`/`Tick` script and the `decode` and `describe` parameters.
- `JSONSerialization.data(withJSONObject:)` can throw in general. The model assumes it does not, since the bodies built here are always valid JSON objects.
- `ImageStorage.SaveToStorage`: a failing `JSONEncoder` (`try?`) would leave the persisted copy unchanged. The model assumes encoding succeeds, since the records hold only encodable fields.
- URL parsing: `URL(string:)` is the uninterpreted `parses` parameter, so results hold for every parser.
- The wait itself (one second per iteration), `@MainActor`/`@Published` publishing and concurrency: the view model is sequential state.
- `UUID()` and `Date()` are fresh values the caller supplies to `ImageStorage.NewImage`.
- Floating point: 3.5, 0.8 and the guidance values are exact decimals (scaled integers).
- `SettingsManager.cleanupStorageIfNeeded` reads `ImageStorageManager.shared`, which ImageStorageManager.swift does not declare. The model passes the store in explicitly.
- Settings.CleanupStorageIfNeeded: does not model the 64-bit `Int` subtraction `count - maxImages`, which traps when `maxImages < count - Int.max` (for example `maxImages == Int.min`); the model's unbounded integers delete every record there instead.
- Settings.TrimmedKeepsNewest: the "none at all when maxImages is 0 or less" case is the unbounded-integer reading; in the app a limit below `count - Int.max` traps instead of emptying the list.
- The `didSet` observers only call the modelled functions, so their wiring is not modelled separately. `autoSave` has no logic.
- Photo-library export (both `PhotoManager` files), notifications, bundle helpers, `Config` constants and every SwiftUI view are UI or platform glue. Some of them call members that do not exist in the code: `generateImage`, `restoreImage(url: URL)`, and `apiKey`/`defaultModel`/`accentColor`.
- `ReplicateError.noData` and `decodingError` are declared but never thrown. A decoding failure is `JSONDecoder`'s own error, `Failure.Decoding`.

=== FILE: decimal.dfy ===
/** Decimal rendering of integers, as Swift string interpolation writes an `Int`
    (used for the "Status code: N" message of a rejected request). */
module Decimal {

  predicate IsDigit(c: char) {
    '0' <= c <= '9'
  }

  function DigitChar(d: nat): (c: char)
    requires d < 10
    ensures IsDigit(c)
    ensures DigitValue(c) == d
  {
    (48 + d) as char
  }

  function DigitValue(c: char): (d: nat)
    requires IsDigit(c)
    ensures d < 10
  {
    (c as int) - 48
  }

  /** The shortest decimal numeral of `n`: digits only, no leading zero. */
  function NatToString(n: nat): (s: string)
    ensures |s| >= 1
    ensures forall k :: 0 <= k < |s| ==> IsDigit(s[k])
    ensures s[0] == '0' ==> n == 0
    decreases n
  {
    if n < 10 then [DigitChar(n)] else NatToString(n / 10) + [DigitChar(n % 10)]
  }

  /** Reads a string of digits back as a number; the reference reading of a numeral. */
  function DigitsValue(s: string): nat
    requires forall k :: 0 <= k < |s| ==> IsDigit(s[k])
  {
    if |s| == 0 then 0 else DigitsValue(s[..|s| - 1]) * 10 + DigitValue(s[|s| - 1])
  }

  /** Swift's `"\(n)"` for an `Int`: a minus sign before a negative magnitude. */
  function IntToString(n: int): (s: string)
    ensures |s| >= 1
    ensures (s[0] == '-') <==> n < 0
    ensures forall k :: 0 <= k < |s| && (k > 0 || n >= 0) ==> IsDigit(s[k])
    ensures var digits := if n < 0 then s[1..] else s;
      |digits| >= 1 && (digits[0] == '0' ==> n == 0)
  {
    if n < 0 then
      var magnitude := NatToString(-n);
      assert ("-" + magnitude)[1..] == magnitude;
      "-" + magnitude
    else NatToString(n)
  }

  /** Reads the output of `IntToString` back. */
  function ParseInt(s: string): int
  {
    if |s| > 0 && s[0] == '-' && (forall k :: 1 <= k < |s| ==> IsDigit(s[k])) then
      -(DigitsValue(s[1..]) as int)
    else if forall k :: 0 <= k < |s| ==> IsDigit(s[k]) then
      DigitsValue(s) as int
    else
      0
  }

  /** Reading a rendered natural number gives the number back. */
  lemma {:induction false} NatToStringRoundTrip(n: nat)
    ensures DigitsValue(NatToString(n)) == n
    decreases n
  {
    if n >= 10 {
      var s := NatToString(n);
      assert s[..|s| - 1] == NatToString(n / 10);
      NatToStringRoundTrip(n / 10);
    }
  }

  /** Reading a rendered integer gives the integer back, so distinct integers render distinctly. */
  lemma IntToStringRoundTrip(n: int)
    ensures ParseInt(IntToString(n)) == n
  {
    if n < 0 {
      var s := IntToString(n);
      assert s[1..] == NatToString(-n);
      NatToStringRoundTrip(-n);
    } else {
      NatToStringRoundTrip(n);
    }
  }

  lemma IntToStringInjective(m: int, n: int)
    requires IntToString(m) == IntToString(n)
    ensures m == n
  {
    IntToStringRoundTrip(m);
    IntToStringRoundTrip(n);
  }
}

=== FILE: image_storage.dfy ===
/** `GeneratedImage` and `ImageStorageManager` (ImageR/Config/ImageStorageManager.swift):
    an ordered list of image records with append and delete-by-id, written back to
    the persisted copy after every mutation. The persisted copy (`UserDefaults`
    under "savedImages") is the `persisted` field; `None` stands for no decodable
    data. */
module ImageStorage {
  import opened Wrappers

  /** `UUID()`: an opaque identifier the caller supplies. */
  type Uuid = nat
  /** `Date()`: an opaque timestamp the caller supplies. */
  type Timestamp = int

  datatype ImageSize = ImageSize(width: int, height: int)

  datatype ImageType = Generated | Restored

  datatype GeneratedImage = GeneratedImage(
    id: Uuid,
    url: string,
    prompt: Option<string>,
    createdAt: Timestamp,
    imageType: ImageType,
    size: Option<ImageSize>)

  /** `GeneratedImage.init(url:prompt:type:size:)`: `prompt` and `size` default to nil;
      the id and the timestamp are fresh values drawn by the caller. */
  function NewImage(
    url: string, imageType: ImageType, freshId: Uuid, now: Timestamp,
    prompt: Option<string> := None, size: Option<ImageSize> := None)
    : (image: GeneratedImage)
    ensures image.id == freshId && image.createdAt == now
    ensures image.url == url && image.imageType == imageType
    ensures image.prompt == prompt && image.size == size
  {
    GeneratedImage(freshId, url, prompt, now, imageType, size)
  }

  datatype Store = Store(savedImages: seq<GeneratedImage>, persisted: Option<seq<GeneratedImage>>)

  /** The persisted copy equals the in-memory list. */
  predicate Synced(st: Store) {
    st.persisted == Some(st.savedImages)
  }

  function IdsOf(images: seq<GeneratedImage>): set<Uuid> {
    set k | 0 <= k < |images| :: images[k].id
  }

  /** No two records share an id. */
  predicate DistinctIds(images: seq<GeneratedImage>) {
    forall i, j :: 0 <= i < j < |images| ==> images[i].id != images[j].id
  }

  /** `init()` then `loadImages()`: the decoded persisted list, or the empty list. */
  function Load(persisted: Option<seq<GeneratedImage>>): (st: Store)
    ensures st.persisted == persisted
    ensures persisted.Some? ==> Synced(st)
    ensures persisted.None? ==> st.savedImages == []
  {
    Store(if persisted.Some? then persisted.value else [], persisted)
  }

  /** `saveToStorage()`. */
  function SaveToStorage(st: Store): (r: Store)
    ensures Synced(r) && r.savedImages == st.savedImages
  {
    st.(persisted := Some(st.savedImages))
  }

  /** `saveImage(_:)`: append at the end, then persist. */
  function SaveImage(st: Store, image: GeneratedImage): (r: Store)
    ensures |r.savedImages| == |st.savedImages| + 1
    ensures r.savedImages[..|st.savedImages|] == st.savedImages
    ensures r.savedImages[|st.savedImages|] == image
    ensures Synced(r)
  {
    SaveToStorage(st.(savedImages := st.savedImages + [image]))
  }

  /** `removeAll { $0.id == id }`. */
  function RemoveById(images: seq<GeneratedImage>, id: Uuid): (r: seq<GeneratedImage>)
    ensures forall x :: x in r <==> x in images && x.id != id
    ensures |r| <= |images|
  {
    if |images| == 0 then []
    else if images[0].id == id then RemoveById(images[1..], id)
    else [images[0]] + RemoveById(images[1..], id)
  }

  /** `deleteImage(_:)`: drop every record with the image's id, then persist. */
  function DeleteImage(st: Store, image: GeneratedImage): (r: Store)
    ensures r.savedImages == RemoveById(st.savedImages, image.id)
    ensures forall x :: x in r.savedImages <==> x in st.savedImages && x.id != image.id
    ensures image.id !in IdsOf(r.savedImages)
    ensures Synced(r)
  {
    var r := SaveToStorage(st.(savedImages := RemoveById(st.savedImages, image.id)));
    assert forall k :: 0 <= k < |r.savedImages| ==> r.savedImages[k] in r.savedImages;
    r
  }

  /** Removal works piecewise, so the kept records stay in their relative order. */
  lemma {:induction false} RemoveByIdAppend(a: seq<GeneratedImage>, b: seq<GeneratedImage>, id: Uuid)
    ensures RemoveById(a + b, id) == RemoveById(a, id) + RemoveById(b, id)
    decreases |a|
  {
    if |a| == 0 {
      assert a + b == b;
    } else {
      assert (a + b)[0] == a[0];
      assert (a + b)[1..] == a[1..] + b;
      RemoveByIdAppend(a[1..], b, id);
    }
  }

  /** Removing an id nobody has changes nothing. */
  lemma {:induction false} RemoveByIdAbsent(images: seq<GeneratedImage>, id: Uuid)
    requires id !in IdsOf(images)
    ensures RemoveById(images, id) == images
    decreases |images|
  {
    if |images| > 0 {
      assert images[0].id in IdsOf(images);
      assert IdsOf(images[1..]) <= IdsOf(images) by {
        forall k | 0 <= k < |images[1..]| ensures images[1..][k].id in IdsOf(images) {
          assert images[1..][k] == images[k + 1];
        }
      }
      RemoveByIdAbsent(images[1..], id);
    }
  }

  /** `deleteImage` of an id that is not stored leaves the list as it was. */
  lemma DeleteAbsentKeepsList(st: Store, image: GeneratedImage)
    requires image.id !in IdsOf(st.savedImages)
    ensures DeleteImage(st, image).savedImages == st.savedImages
  {
    RemoveByIdAbsent(st.savedImages, image.id);
  }

  /** Deleting twice is deleting once. */
  lemma DeleteIdempotent(st: Store, image: GeneratedImage)
    ensures DeleteImage(DeleteImage(st, image), image) == DeleteImage(st, image)
  {
    var once := DeleteImage(st, image);
    RemoveByIdAbsent(once.savedImages, image.id);
  }

  /** Saving a record whose id is fresh keeps ids distinct. */
  lemma SaveFreshKeepsDistinct(st: Store, image: GeneratedImage)
    requires DistinctIds(st.savedImages) && image.id !in IdsOf(st.savedImages)
    ensures DistinctIds(SaveImage(st, image).savedImages)
  {
  }
}

=== FILE: json_values.dfy ===
/** The JSON values the app sends and stores. Numbers are kept exact as a
    scaled integer and a count of decimal places (3.5 is `JNumber(35, 1)`),
    so no floating point is involved. */
module JsonValues {

  datatype Json =
    | JString(str: string)
    | JNumber(scaled: int, decimals: nat)
    | JObject(fields: map<string, Json>)

}

=== FILE: replicate.dfy ===
/** The prediction client (`ReplicateService` in ImageR/Services/Replicate.swift):
    how each call builds its HTTP request, which replies it accepts, and how a
    reply becomes a `PredictionResponse` or a thrown error. The network round
    trip itself is an `Exchange` the caller supplies; `URL(string:)` is the
    `parses` parameter and `JSONDecoder` the `decode` parameter. */
module Replicate {
  import opened Wrappers
  import opened JsonValues
  import Decimal

  const BaseUrl: string := "https://api.replicate.com/v1"
  const DisposableCameraVersion: string :=
    "levelsio/disposable-camera:4c8511f55da3561433a89774d0a5c5281594772ecc83130a52c07c6f72a4e550"
  const FaceRestorationVersion: string :=
    "tencentarc/gfpgan:9283608cc6b7be6b65a8e44983db012355fde4132009bf99d976b2f0896856a3"
  const AuthorizationPrefix: string := "Token "

  newtype byte = x: int | 0 <= x < 256
  type Data = seq<byte>

  /** A decoded prediction: id and status always present, output and error optional. */
  datatype PredictionResponse = PredictionResponse(
    id: string,
    status: string,
    output: Option<seq<string>>,
    error: Option<string>)

  datatype ReplicateError = InvalidURL | InvalidResponse | NoData | DecodingError | ApiError(message: string)

  /** Everything a client call can throw: its own errors, a `URLSession` transport
      error, or a `JSONDecoder` error (which is not `ReplicateError.decodingError`). */
  datatype Failure = Service(reason: ReplicateError) | Transport | Decoding

  datatype HttpMethod = Get | Post

  datatype Request = Request(
    httpMethod: HttpMethod,
    url: string,
    headers: map<string, string>,
    body: Option<Json>)

  /** What `URLSession` hands back: an HTTP response with its status code, or some other kind. */
  datatype UrlResponse = HttpResponse(statusCode: int) | OtherResponse

  /** One network round trip: a transport error, or the data and response received. */
  datatype Exchange = TransportError | Received(data: Data, response: UrlResponse)

  function PredictionsUrl(): string {
    BaseUrl + "/predictions"
  }

  function PredictionUrl(id: string): string {
    BaseUrl + "/predictions/" + id
  }

  /** Reference reading of an `Authorization` header: the token after the "Token " prefix. */
  function TokenOf(r: Request): Option<string> {
    if "Authorization" in r.headers
       && |AuthorizationPrefix| <= |r.headers["Authorization"]|
       && r.headers["Authorization"][..|AuthorizationPrefix|] == AuthorizationPrefix
    then Some(r.headers["Authorization"][|AuthorizationPrefix|..])
    else None
  }

  /** Reference reading of a status-check URL: the prediction id after the collection path. */
  function PredictionIdOf(url: string): Option<string> {
    var prefix := PredictionsUrl() + "/";
    if |prefix| <= |url| && url[..|prefix|] == prefix then Some(url[|prefix|..]) else None
  }

  /** The message of `apiError` for a rejected status code. */
  function StatusMessage(code: int): string {
    "Status code: " + Decimal.IntToString(code)
  }

  /** Reads the status code back out of a `StatusMessage`. */
  function StatusCodeOf(message: string): Option<int> {
    var prefix := "Status code: ";
    if |prefix| <= |message| && message[..|prefix|] == prefix
    then Some(Decimal.ParseInt(message[|prefix|..]))
    else None
  }

  /** The rejection message names the status code exactly. */
  lemma StatusMessageNamesCode(code: int)
    ensures StatusCodeOf(StatusMessage(code)) == Some(code)
  {
    var m := StatusMessage(code);
    assert m[..13] == "Status code: ";
    assert m[13..] == Decimal.IntToString(code);
    Decimal.IntToStringRoundTrip(code);
  }

  /** Input of the disposable-camera model: the prompt and four fixed parameters. */
  function DisposableCameraInput(prompt: string): (input: map<string, Json>)
    ensures input.Keys == {"prompt", "num_outputs", "aspect_ratio", "guidance_scale", "extra_lora_scale"}
    ensures input["prompt"] == JString(prompt)
    ensures input["num_outputs"] == JNumber(4, 0)
    ensures input["aspect_ratio"] == JString("16:9")
    ensures input["guidance_scale"] == JNumber(35, 1)
    ensures input["extra_lora_scale"] == JNumber(8, 1)
  {
    map[
      "prompt" := JString(prompt),
      "num_outputs" := JNumber(4, 0),
      "aspect_ratio" := JString("16:9"),
      "guidance_scale" := JNumber(35, 1),
      "extra_lora_scale" := JNumber(8, 1)]
  }

  /** Input of the face-restoration model: the image URL under the single key "img". */
  function FaceRestorationInput(imageUrl: string): (input: map<string, Json>)
    ensures input.Keys == {"img"}
    ensures input["img"] == JString(imageUrl)
  {
    map["img" := JString(imageUrl)]
  }

  /** The input object a submission request carries, if its body has that shape. */
  function InputOf(r: Request): Option<map<string, Json>> {
    if r.body.Some? && r.body.value.JObject? && "input" in r.body.value.fields
       && r.body.value.fields["input"].JObject?
    then Some(r.body.value.fields["input"].fields)
    else None
  }

  /** The model version a submission request names, if its body has that shape. */
  function VersionOf(r: Request): Option<string> {
    if r.body.Some? && r.body.value.JObject? && "version" in r.body.value.fields
       && r.body.value.fields["version"].JString?
    then Some(r.body.value.fields["version"].str)
    else None
  }

  /** The POST that creates a prediction (`runModel`). */
  function SubmitRequest(apiToken: string, version: string, input: map<string, Json>): (r: Request)
    ensures r.httpMethod == Post && r.url == PredictionsUrl()
    ensures r.headers.Keys == {"Authorization", "Content-Type"}
    ensures r.headers["Content-Type"] == "application/json"
    ensures TokenOf(r) == Some(apiToken)
    ensures r.body.Some? && r.body.value.JObject?
    ensures r.body.value.fields.Keys == {"version", "input"}
    ensures r.body.value.fields["version"] == JString(version)
    ensures VersionOf(r) == Some(version)
    ensures InputOf(r) == Some(input)
  {
    var auth := AuthorizationPrefix + apiToken;
    assert auth[..|AuthorizationPrefix|] == AuthorizationPrefix;
    assert auth[|AuthorizationPrefix|..] == apiToken;
    Request(
      Post,
      PredictionsUrl(),
      map["Authorization" := auth, "Content-Type" := "application/json"],
      Some(JObject(map["version" := JString(version), "input" := JObject(input)])))
  }

  /** The GET that re-reads a prediction by id (`checkPrediction`). */
  function CheckRequest(apiToken: string, id: string): (r: Request)
    ensures r.httpMethod == Get && r.body.None?
    ensures PredictionIdOf(r.url) == Some(id)
    ensures r.headers.Keys == {"Authorization"}
    ensures TokenOf(r) == Some(apiToken)
  {
    var auth := AuthorizationPrefix + apiToken;
    assert auth[..|AuthorizationPrefix|] == AuthorizationPrefix;
    assert auth[|AuthorizationPrefix|..] == apiToken;
    var url := PredictionUrl(id);
    assert url[..|PredictionsUrl() + "/"|] == PredictionsUrl() + "/";
    assert url[|PredictionsUrl() + "/"|..] == id;
    Request(Get, url, map["Authorization" := auth], None)
  }

  /** The submission `runDisposableCamera(prompt:)` puts on the wire. */
  function DisposableCameraRequest(apiToken: string, prompt: string): (r: Request)
    ensures r.httpMethod == Post && r.url == PredictionsUrl()
    ensures TokenOf(r) == Some(apiToken)
    ensures VersionOf(r) == Some(DisposableCameraVersion)
    ensures InputOf(r) == Some(DisposableCameraInput(prompt))
  {
    SubmitRequest(apiToken, DisposableCameraVersion, DisposableCameraInput(prompt))
  }

  /** The submission `runFaceRestoration(imageURL:)` puts on the wire. */
  function FaceRestorationRequest(apiToken: string, imageUrl: string): (r: Request)
    ensures r.httpMethod == Post && r.url == PredictionsUrl()
    ensures TokenOf(r) == Some(apiToken)
    ensures VersionOf(r) == Some(FaceRestorationVersion)
    ensures InputOf(r) == Some(map["img" := JString(imageUrl)])
  {
    SubmitRequest(apiToken, FaceRestorationVersion, FaceRestorationInput(imageUrl))
  }

  /** Status codes a submission accepts. */
  predicate SubmitAccepts(code: int) {
    code == 200 || code == 201
  }

  /** Status codes a status check accepts. */
  predicate CheckAccepts(code: int) {
    code == 200
  }

  /** The guards shared by both calls once the request has gone out: not HTTP,
      a status code the call does not accept, a body that does not decode. */
  function Accept(exchange: Exchange, accepts: int -> bool, decode: Data -> Option<PredictionResponse>)
    : (r: Result<PredictionResponse, Failure>)
    ensures r.Ok? <==>
      exchange.Received? && exchange.response.HttpResponse?
      && accepts(exchange.response.statusCode) && decode(exchange.data).Some?
    ensures r.Ok? ==> decode(exchange.data) == Some(r.value)
    ensures exchange.TransportError? ==> r == Err(Transport)
    ensures exchange.Received? && exchange.response.OtherResponse? ==> r == Err(Service(InvalidResponse))
    ensures exchange.Received? && exchange.response.HttpResponse? && !accepts(exchange.response.statusCode)
      ==> r == Err(Service(ApiError(StatusMessage(exchange.response.statusCode))))
    ensures exchange.Received? && exchange.response.HttpResponse? && accepts(exchange.response.statusCode)
      && decode(exchange.data).None?
      ==> r == Err(Decoding)
  {
    match exchange
    case TransportError => Err(Transport)
    case Received(data, OtherResponse) => Err(Service(InvalidResponse))
    case Received(data, HttpResponse(code)) =>
      if !accepts(code) then Err(Service(ApiError(StatusMessage(code))))
      else
        match decode(data)
        case None => Err(Decoding)
        case Some(p) => Ok(p)
  }

  /** What a submission puts on the wire (nothing when the URL does not parse)
      and what it returns. */
  datatype Submission = Submission(sent: seq<Request>, result: Result<PredictionResponse, Failure>)

  /** `runModel`: the URL guard, the POST of this version and input, then the reply to it. */
  function RunModel(
    apiToken: string, version: string, input: map<string, Json>,
    parses: string -> bool, exchange: Exchange, decode: Data -> Option<PredictionResponse>)
    : (r: Submission)
    ensures r.sent == if parses(PredictionsUrl()) then [SubmitRequest(apiToken, version, input)] else []
    ensures !parses(PredictionsUrl()) ==> r.result == Err(Service(InvalidURL))
    ensures r.result.Ok? <==>
      parses(PredictionsUrl()) && exchange.Received? && exchange.response.HttpResponse?
      && (exchange.response.statusCode == 200 || exchange.response.statusCode == 201)
      && decode(exchange.data).Some?
    ensures r.result.Ok? ==> decode(exchange.data) == Some(r.result.value)
    ensures parses(PredictionsUrl()) && exchange.Received? && exchange.response.OtherResponse?
      ==> r.result == Err(Service(InvalidResponse))
    ensures parses(PredictionsUrl()) && exchange.Received? && exchange.response.HttpResponse?
      && exchange.response.statusCode != 200 && exchange.response.statusCode != 201
      ==> r.result == Err(Service(ApiError(StatusMessage(exchange.response.statusCode))))
    ensures parses(PredictionsUrl()) && exchange.TransportError? ==> r.result == Err(Transport)
    ensures parses(PredictionsUrl()) && exchange.Received? && exchange.response.HttpResponse?
      && (exchange.response.statusCode == 200 || exchange.response.statusCode == 201)
      && decode(exchange.data).None?
      ==> r.result == Err(Decoding)
  {
    if !parses(PredictionsUrl()) then Submission([], Err(Service(InvalidURL)))
    else Submission([SubmitRequest(apiToken, version, input)], Accept(exchange, SubmitAccepts, decode))
  }

  /** `checkPrediction`: the URL guard for this id, then the reply to the GET. */
  function CheckPrediction(
    apiToken: string, id: string,
    parses: string -> bool, exchange: Exchange, decode: Data -> Option<PredictionResponse>)
    : (r: Result<PredictionResponse, Failure>)
    ensures !parses(PredictionUrl(id)) ==> r == Err(Service(InvalidURL))
    ensures r.Ok? <==>
      parses(PredictionUrl(id)) && exchange.Received? && exchange.response.HttpResponse?
      && exchange.response.statusCode == 200 && decode(exchange.data).Some?
    ensures r.Ok? ==> decode(exchange.data) == Some(r.value)
    ensures parses(PredictionUrl(id)) && exchange.Received? && exchange.response.OtherResponse?
      ==> r == Err(Service(InvalidResponse))
    ensures parses(PredictionUrl(id)) && exchange.Received? && exchange.response.HttpResponse?
      && exchange.response.statusCode != 200
      ==> r == Err(Service(ApiError(StatusMessage(exchange.response.statusCode))))
    ensures parses(PredictionUrl(id)) && exchange.TransportError? ==> r == Err(Transport)
    ensures parses(PredictionUrl(id)) && exchange.Received? && exchange.response.HttpResponse?
      && exchange.response.statusCode == 200 && decode(exchange.data).None?
      ==> r == Err(Decoding)
  {
    if !parses(PredictionUrl(id)) then Err(Service(InvalidURL))
    else Accept(exchange, CheckAccepts, decode)
  }

  /** `runDisposableCamera(prompt:)`: one POST naming the disposable-camera version with
      its fixed input, accepted on 200 or 201. */
  function RunDisposableCamera(
    apiToken: string, prompt: string,
    parses: string -> bool, exchange: Exchange, decode: Data -> Option<PredictionResponse>)
    : (r: Submission)
    ensures !parses(PredictionsUrl()) ==> r.sent == [] && r.result == Err(Service(InvalidURL))
    ensures parses(PredictionsUrl()) ==>
      && |r.sent| == 1
      && r.sent[0].httpMethod == Post && r.sent[0].url == PredictionsUrl()
      && TokenOf(r.sent[0]) == Some(apiToken)
      && VersionOf(r.sent[0]) == Some(DisposableCameraVersion)
      && InputOf(r.sent[0]) == Some(DisposableCameraInput(prompt))
    ensures r.result.Ok? <==>
      parses(PredictionsUrl()) && exchange.Received? && exchange.response.HttpResponse?
      && (exchange.response.statusCode == 200 || exchange.response.statusCode == 201)
      && decode(exchange.data).Some?
    ensures parses(PredictionsUrl()) ==> r.result == Accept(exchange, SubmitAccepts, decode)
  {
    RunModel(apiToken, DisposableCameraVersion, DisposableCameraInput(prompt), parses, exchange, decode)
  }

  /** `runFaceRestoration(imageURL:)`: one POST naming the face-restoration version with
      `{"img": imageURL}`, accepted on 200 or 201. */
  function RunFaceRestoration(
    apiToken: string, imageUrl: string,
    parses: string -> bool, exchange: Exchange, decode: Data -> Option<PredictionResponse>)
    : (r: Submission)
    ensures !parses(PredictionsUrl()) ==> r.sent == [] && r.result == Err(Service(InvalidURL))
    ensures parses(PredictionsUrl()) ==>
      && |r.sent| == 1
      && r.sent[0].httpMethod == Post && r.sent[0].url == PredictionsUrl()
      && TokenOf(r.sent[0]) == Some(apiToken)
      && VersionOf(r.sent[0]) == Some(FaceRestorationVersion)
      && InputOf(r.sent[0]) == Some(map["img" := JString(imageUrl)])
    ensures r.result.Ok? <==>
      parses(PredictionsUrl()) && exchange.Received? && exchange.response.HttpResponse?
      && (exchange.response.statusCode == 200 || exchange.response.statusCode == 201)
      && decode(exchange.data).Some?
    ensures parses(PredictionsUrl()) ==> r.result == Accept(exchange, SubmitAccepts, decode)
  {
    RunModel(apiToken, FaceRestorationVersion, FaceRestorationInput(imageUrl), parses, exchange, decode)
  }

  /** A 201 Created reply is a success for a submission and an `apiError` for a status check. */
  lemma CreatedAcceptedOnlyOnSubmit(
    apiToken: string, version: string, input: map<string, Json>, id: string,
    parses: string -> bool, data: Data, decode: Data -> Option<PredictionResponse>)
    requires parses(PredictionsUrl()) && parses(PredictionUrl(id)) && decode(data).Some?
    ensures RunModel(apiToken, version, input, parses, Received(data, HttpResponse(201)), decode).result
      == Ok(decode(data).value)
    ensures CheckPrediction(apiToken, id, parses, Received(data, HttpResponse(201)), decode)
      == Err(Service(ApiError("Status code: 201")))
  {
    assert Decimal.NatToString(2) == "2";
    assert Decimal.NatToString(20) == Decimal.NatToString(2) + "0";
    assert Decimal.NatToString(201) == Decimal.NatToString(20) + "1";
    assert StatusMessage(201) == "Status code: 201";
  }
}

=== FILE: settings.dfy ===
/** The rules of `SettingsManager` (ImageR/Config/SettingsManager.swift): the
    quality level's API parameters, the theme code's interface style, and the
    retention rule that trims the stored images to `maxImages`. */
module Settings {
  import opened Wrappers
  import opened JsonValues
  import opened ImageStorage

  /** The parameters a quality level selects; guidance is in tenths (7.5 is 75). */
  datatype QualityParameters = QualityParameters(inferenceSteps: int, guidanceTenths: int)

  /** The quality mapping of `updateReplicateSettings`: Low, Medium, and High for every other level. */
  function ParametersFor(quality: int): (p: QualityParameters)
    ensures quality == 0 ==> p == QualityParameters(20, 70)
    ensures quality == 1 ==> p == QualityParameters(30, 75)
    ensures quality != 0 && quality != 1 ==> p == QualityParameters(50, 80)
  {
    QualityParameters(
      if quality == 0 then 20 else if quality == 1 then 30 else 50,
      if quality == 0 then 70 else if quality == 1 then 75 else 80)
  }

  /** A higher quality level never asks for fewer steps or less guidance. */
  lemma ParametersMonotone(low: int, high: int)
    requires 0 <= low <= high
    ensures ParametersFor(low).inferenceSteps <= ParametersFor(high).inferenceSteps
    ensures ParametersFor(low).guidanceTenths <= ParametersFor(high).guidanceTenths
  {
  }

  /** `updateReplicateSettings()`: store the quality dictionary under "replicateSettings",
      leaving every other stored default alone. */
  function UpdateReplicateSettings(defaults: map<string, Json>, quality: int): (r: map<string, Json>)
    ensures r.Keys == defaults.Keys + {"replicateSettings"}
    ensures forall k :: k in defaults && k != "replicateSettings" ==> r[k] == defaults[k]
    ensures r["replicateSettings"].JObject?
    ensures r["replicateSettings"].fields.Keys == {"num_inference_steps", "guidance_scale"}
    ensures r["replicateSettings"].fields["num_inference_steps"]
      == JNumber(ParametersFor(quality).inferenceSteps, 0)
    ensures r["replicateSettings"].fields["guidance_scale"]
      == JNumber(ParametersFor(quality).guidanceTenths, 1)
  {
    var p := ParametersFor(quality);
    defaults["replicateSettings" := JObject(map[
      "num_inference_steps" := JNumber(p.inferenceSteps, 0),
      "guidance_scale" := JNumber(p.guidanceTenths, 1)])]
  }

  datatype InterfaceStyle = Unspecified | Light | Dark

  /** The code the settings picker stores for each style. */
  function ThemeCode(style: InterfaceStyle): int {
    match style
    case Unspecified => 0
    case Light => 1
    case Dark => 2
  }

  /** The `switch theme` of `applyTheme`: 1 light, 2 dark, anything else follows the system. */
  function StyleFor(theme: int): (style: InterfaceStyle)
    ensures ThemeCode(style) == theme || (style == Unspecified && theme != 1 && theme != 2)
  {
    if theme == 1 then Light else if theme == 2 then Dark else Unspecified
  }

  /** Every style is reached from its own code, and only the three picker codes map back to themselves. */
  lemma ThemeCodeRoundTrip(style: InterfaceStyle, theme: int)
    ensures StyleFor(ThemeCode(style)) == style
    ensures ThemeCode(StyleFor(theme)) == theme <==> 0 <= theme <= 2
  {
  }

  /** `applyTheme()`: the first window's style, or nothing when there is no window. */
  function ApplyTheme(window: Option<InterfaceStyle>, theme: int): (r: Option<InterfaceStyle>)
    ensures window.None? ==> r.None?
    ensures window.Some? ==> r == Some(StyleFor(theme))
  {
    if window.None? then None else Some(StyleFor(theme))
  }

  /** `prefix(n)`: the first `n` records, clamped to the list. Swift traps on a
      negative length, so `n` is at least 0. */
  function Prefix(images: seq<GeneratedImage>, n: int): (p: seq<GeneratedImage>)
    requires n >= 0
    ensures |p| == if n < |images| then n else |images|
    ensures p == images[..|p|]
  {
    if n < |images| then images[..n] else images
  }

  /** Every record whose id is not in `ids`, in order: the reference for a series of deletions. */
  function RemoveIds(images: seq<GeneratedImage>, ids: set<Uuid>): (r: seq<GeneratedImage>)
    ensures forall x :: x in r <==> x in images && x.id !in ids
  {
    if |images| == 0 then []
    else if images[0].id in ids then RemoveIds(images[1..], ids)
    else [images[0]] + RemoveIds(images[1..], ids)
  }

  lemma {:induction false} RemoveIdsAppend(a: seq<GeneratedImage>, b: seq<GeneratedImage>, ids: set<Uuid>)
    ensures RemoveIds(a + b, ids) == RemoveIds(a, ids) + RemoveIds(b, ids)
    decreases |a|
  {
    if |a| == 0 {
      assert a + b == b;
    } else {
      assert (a + b)[0] == a[0];
      assert (a + b)[1..] == a[1..] + b;
      RemoveIdsAppend(a[1..], b, ids);
    }
  }

  /** One more deletion by id extends the removed set by that id. */
  lemma {:induction false} RemoveByIdAfterRemoveIds(images: seq<GeneratedImage>, ids: set<Uuid>, id: Uuid)
    ensures RemoveById(RemoveIds(images, ids), id) == RemoveIds(images, ids + {id})
    decreases |images|
  {
    if |images| > 0 {
      RemoveByIdAfterRemoveIds(images[1..], ids, id);
      if images[0].id !in ids {
        assert RemoveIds(images, ids) == [images[0]] + RemoveIds(images[1..], ids);
        RemoveByIdAppend([images[0]], RemoveIds(images[1..], ids), id);
      }
    }
  }

  lemma {:induction false} RemoveIdsKeepsOthers(images: seq<GeneratedImage>, ids: set<Uuid>)
    requires forall k :: 0 <= k < |images| ==> images[k].id !in ids
    ensures RemoveIds(images, ids) == images
    decreases |images|
  {
    if |images| > 0 {
      RemoveIdsKeepsOthers(images[1..], ids);
    }
  }

  lemma {:induction false} RemoveIdsOwnIds(images: seq<GeneratedImage>, ids: set<Uuid>)
    requires IdsOf(images) <= ids
    ensures RemoveIds(images, ids) == []
    decreases |images|
  {
    if |images| > 0 {
      assert images[0].id in IdsOf(images);
      assert IdsOf(images[1..]) <= IdsOf(images) by {
        forall k | 0 <= k < |images[1..]| ensures images[1..][k].id in IdsOf(images) {
          assert images[1..][k] == images[k + 1];
        }
      }
      RemoveIdsOwnIds(images[1..], ids);
    }
  }

  /** With distinct ids, removing the ids of the first `n` records leaves exactly the rest. */
  lemma DropOldest(images: seq<GeneratedImage>, n: nat)
    requires DistinctIds(images) && n <= |images|
    ensures RemoveIds(images, IdsOf(images[..n])) == images[n..]
  {
    var ids := IdsOf(images[..n]);
    assert images == images[..n] + images[n..];
    RemoveIdsAppend(images[..n], images[n..], ids);
    RemoveIdsOwnIds(images[..n], ids);
    forall k | 0 <= k < |images[n..]| ensures images[n..][k].id !in ids {
      assert images[n..][k] == images[n + k];
      forall i | 0 <= i < n ensures images[..n][i].id != images[n + k].id {
        assert images[..n][i] == images[i];
      }
    }
    RemoveIdsKeepsOthers(images[n..], ids);
  }

  /** How many of the newest records a limit keeps. */
  function Kept(count: nat, maxImages: int): (k: nat)
    ensures k <= count
  {
    if maxImages <= 0 then 0 else if maxImages < count then maxImages else count
  }

  /** One deletion of the cleanup loop extends the removed ids by the next oldest record's id. */
  lemma DeleteNextOldest(st: Store, r: Store, oldest: seq<GeneratedImage>, i: nat)
    requires i < |oldest|
    requires r.savedImages == RemoveIds(st.savedImages, IdsOf(oldest[..i]))
    ensures DeleteImage(r, oldest[i]).savedImages == RemoveIds(st.savedImages, IdsOf(oldest[..i + 1]))
  {
    RemoveByIdAfterRemoveIds(st.savedImages, IdsOf(oldest[..i]), oldest[i].id);
    assert IdsOf(oldest[..i + 1]) == IdsOf(oldest[..i]) + {oldest[i].id} by {
      assert oldest[..i + 1] == oldest[..i] + [oldest[i]];
    }
  }

  /** The records a cleanup leaves: all of them when within the limit, otherwise
      those whose id is not among the first `count - maxImages` records' ids. */
  function Trimmed(images: seq<GeneratedImage>, maxImages: int): seq<GeneratedImage> {
    if |images| <= maxImages then images
    else RemoveIds(images, IdsOf(Prefix(images, |images| - maxImages)))
  }

  /** With distinct ids, a cleanup keeps exactly the newest `Kept` records, in order. */
  lemma TrimmedKeepsNewest(images: seq<GeneratedImage>, maxImages: int)
    requires DistinctIds(images)
    ensures Trimmed(images, maxImages) == images[|images| - Kept(|images|, maxImages)..]
  {
    if |images| > maxImages {
      var oldest := Prefix(images, |images| - maxImages);
      assert |oldest| == |images| - Kept(|images|, maxImages);
      DropOldest(images, |oldest|);
    } else {
      assert images[|images| - Kept(|images|, maxImages)..] == images;
    }
  }

  /** `oldestImages.forEach { storage.deleteImage($0) }`: delete each victim in turn. */
  method DeleteEach(st: Store, victims: seq<GeneratedImage>) returns (r: Store)
    ensures r.savedImages == RemoveIds(st.savedImages, IdsOf(victims))
    ensures |victims| > 0 ==> Synced(r)
    ensures |victims| == 0 ==> r == st
  {
    r := st;
    RemoveIdsKeepsOthers(st.savedImages, {});
    assert IdsOf(victims[..0]) == {};
    var i := 0;
    while i < |victims|
      invariant i <= |victims|
      invariant r.savedImages == RemoveIds(st.savedImages, IdsOf(victims[..i]))
      invariant i > 0 ==> Synced(r)
      invariant i == 0 ==> r == st
    {
      DeleteNextOldest(st, r, victims, i);
      r := DeleteImage(r, victims[i]);
      i := i + 1;
    }
    assert victims[..i] == victims;
  }

  /** `cleanupStorageIfNeeded()`: when there are more than `maxImages` records, delete
      the first `count - maxImages` of them. */
  method CleanupStorageIfNeeded(st: Store, maxImages: int) returns (r: Store)
    ensures |st.savedImages| <= maxImages ==> r == st
    ensures r.savedImages == Trimmed(st.savedImages, maxImages)
    ensures |st.savedImages| > maxImages && |st.savedImages| > 0 ==> Synced(r)
    ensures DistinctIds(st.savedImages) ==>
      r.savedImages == st.savedImages[|st.savedImages| - Kept(|st.savedImages|, maxImages)..]
  {
    r := st;
    if |st.savedImages| > maxImages {
      r := DeleteEach(st, Prefix(st.savedImages, |st.savedImages| - maxImages));
    }
    if DistinctIds(st.savedImages) {
      TrimmedKeepsNewest(st.savedImages, maxImages);
    }
  }

  /** The record just saved survives a cleanup with a positive limit: saving appends,
      so it is the newest, and it stays the last record. */
  lemma CleanupKeepsNewest(st: Store, image: GeneratedImage, maxImages: int)
    requires DistinctIds(st.savedImages) && image.id !in IdsOf(st.savedImages) && maxImages >= 1
    ensures var t := Trimmed(SaveImage(st, image).savedImages, maxImages);
      |t| >= 1 && t[|t| - 1] == image
  {
    var saved := SaveImage(st, image).savedImages;
    SaveFreshKeepsDistinct(st, image);
    TrimmedKeepsNewest(saved, maxImages);
    assert saved[|saved| - 1] == image;
  }
}

=== FILE: view_model.dfy ===
/** `ImageGeneratorViewModel` (ImageR/ImageGeneratorViewModel.swift): submit a
    prediction, re-fetch it by id until its status is exactly "succeeded" or
    "failed", then publish its output URLs or its error, keeping the
    `isLoading` and `error` flags. The outside world of each loop iteration
    (did `Task.sleep` return, what did the GET get back) is a scripted `Tick`;
    when the script runs out before a terminal status the call is still in
    flight, which the model reports as `Pending`. */
module ViewModel {
  import opened Wrappers
  import opened Replicate

  /** The published state: `generatedImages` (URLs kept as the strings they parse from),
      `isLoading` and `error`. */
  datatype ViewState = ViewState(generatedImages: seq<string>, isLoading: bool, error: Option<string>)

  /** What the `do` block can throw: a client error, or `Task.sleep` throwing (cancellation). */
  datatype Thrown = ServiceThrew(failure: Failure) | SleepCancelled

  /** One loop iteration's outside world. */
  datatype Tick = Tick(sleepCompleted: bool, reply: Exchange)

  datatype PollOutcome = Settled(prediction: PredictionResponse) | Threw(thrown: Thrown) | Pending

  /** How a poll loop ended, how many iterations it ran and which requests it put on the wire. */
  datatype PollRun = PollRun(outcome: PollOutcome, ticksUsed: nat, sent: seq<Request>)

  /** The loop's exit test: only these two exact strings end it. */
  predicate IsTerminal(status: string) {
    status == "succeeded" || status == "failed"
  }

  /** One iteration: sleep, then `checkPrediction` for the submitted id. */
  function FetchStep(
    apiToken: string, id: string, tick: Tick,
    parses: string -> bool, decode: Data -> Option<PredictionResponse>)
    : (r: Result<PredictionResponse, Thrown>)
    ensures !tick.sleepCompleted ==> r == Err(SleepCancelled)
    ensures tick.sleepCompleted ==>
      var checked := CheckPrediction(apiToken, id, parses, tick.reply, decode);
      && (r.Ok? <==> checked.Ok?)
      && (r.Ok? ==> r.value == checked.value)
      && (r.Err? ==> r.error == ServiceThrew(checked.error))
  {
    if !tick.sleepCompleted then Err(SleepCancelled)
    else
      match CheckPrediction(apiToken, id, parses, tick.reply, decode)
      case Ok(p) => Ok(p)
      case Err(f) => Err(ServiceThrew(f))
  }

  /** The request one iteration puts on the wire: none when the sleep throws or the URL does not parse. */
  function SentBy(apiToken: string, id: string, tick: Tick, parses: string -> bool): seq<Request> {
    if tick.sleepCompleted && parses(PredictionUrl(id)) then [CheckRequest(apiToken, id)] else []
  }

  /** An iteration after which the loop goes round again. */
  predicate KeepsPolling(r: Result<PredictionResponse, Thrown>) {
    r.Ok? && !IsTerminal(r.value.status)
  }

  /** `run` with `used` earlier iterations, which sent `sent`, put in front of it. */
  function Shift(used: nat, sent: seq<Request>, run: PollRun): PollRun {
    run.(ticksUsed := run.ticksUsed + used, sent := sent + run.sent)
  }

  /** Reference definition of the poll loop, one iteration per tick. */
  function PollSpec(
    apiToken: string, id: string, current: PredictionResponse, script: seq<Tick>,
    parses: string -> bool, decode: Data -> Option<PredictionResponse>)
    : PollRun
    decreases |script|
  {
    if IsTerminal(current.status) then PollRun(Settled(current), 0, [])
    else if |script| == 0 then PollRun(Pending, 0, [])
    else
      var sent := SentBy(apiToken, id, script[0], parses);
      match FetchStep(apiToken, id, script[0], parses, decode)
      case Err(t) => PollRun(Threw(t), 1, sent)
      case Ok(p) => Shift(1, sent, PollSpec(apiToken, id, p, script[1..], parses, decode))
  }

  /** What the reference loop does: it stops at the first iteration that throws or
      fetches a terminal status, after every earlier one fetched a non-terminal
      status; it runs no iteration when it starts terminal; and every request
      it sends is the status check of the one id it was given. */
  lemma {:induction false} PollSpecStopsAtFirstTerminal(
    apiToken: string, id: string, current: PredictionResponse, script: seq<Tick>,
    parses: string -> bool, decode: Data -> Option<PredictionResponse>)
    ensures var run := PollSpec(apiToken, id, current, script, parses, decode);
      && run.ticksUsed <= |script|
      && (IsTerminal(current.status) <==> run.ticksUsed == 0 && run.outcome.Settled?)
      && (run.ticksUsed == 0 ==> run.outcome != Pending ==> run.outcome == Settled(current))
      && (forall k :: 0 <= k < run.ticksUsed - 1 ==>
            KeepsPolling(FetchStep(apiToken, id, script[k], parses, decode)))
      && (run.outcome.Settled? ==> IsTerminal(run.outcome.prediction.status))
      && (run.outcome.Settled? && run.ticksUsed > 0 ==>
            FetchStep(apiToken, id, script[run.ticksUsed - 1], parses, decode) == Ok(run.outcome.prediction))
      && (run.outcome.Threw? ==>
            (run.ticksUsed > 0 &&
             FetchStep(apiToken, id, script[run.ticksUsed - 1], parses, decode) == Err(run.outcome.thrown)))
      && (run.outcome.Pending? ==>
            (run.ticksUsed == |script| &&
             (run.ticksUsed == 0 ==> !IsTerminal(current.status)) &&
             (run.ticksUsed > 0 ==> KeepsPolling(FetchStep(apiToken, id, script[run.ticksUsed - 1], parses, decode)))))
      && (forall k :: 0 <= k < |run.sent| ==> run.sent[k] == CheckRequest(apiToken, id))
      && |run.sent| <= run.ticksUsed
      && (!parses(PredictionUrl(id)) ==> run.sent == [])
      && (parses(PredictionUrl(id)) && (forall k :: 0 <= k < run.ticksUsed ==> script[k].sleepCompleted)
          ==> |run.sent| == run.ticksUsed)
      && (parses(PredictionUrl(id)) ==>
            |run.sent| == run.ticksUsed - (if run.outcome == Threw(SleepCancelled) then 1 else 0))
    decreases |script|
  {
    var run := PollSpec(apiToken, id, current, script, parses, decode);
    if !IsTerminal(current.status) && |script| > 0 {
      match FetchStep(apiToken, id, script[0], parses, decode)
      case Err(t) =>
      case Ok(p) =>
        var rest := PollSpec(apiToken, id, p, script[1..], parses, decode);
        PollSpecStopsAtFirstTerminal(apiToken, id, p, script[1..], parses, decode);
        assert run == Shift(1, SentBy(apiToken, id, script[0], parses), rest);
        forall k | 0 <= k < run.ticksUsed - 1
          ensures KeepsPolling(FetchStep(apiToken, id, script[k], parses, decode))
        {
          if k > 0 {
            assert script[k] == script[1..][k - 1];
          }
        }
        if rest.ticksUsed > 0 {
          assert script[run.ticksUsed - 1] == script[1..][rest.ticksUsed - 1];
        }
        if parses(PredictionUrl(id)) && (forall k :: 0 <= k < run.ticksUsed ==> script[k].sleepCompleted) {
          forall k | 0 <= k < rest.ticksUsed ensures script[1..][k].sleepCompleted {
            assert script[1..][k] == script[k + 1];
          }
        }
    }
  }

  /** One unfolding of the reference loop for an iteration that fetched a prediction. */
  lemma PollSpecUnfold(
    apiToken: string, id: string, current: PredictionResponse, script: seq<Tick>,
    parses: string -> bool, decode: Data -> Option<PredictionResponse>,
    used: nat, sent: seq<Request>, p: PredictionResponse)
    requires !IsTerminal(current.status) && |script| > 0
    requires FetchStep(apiToken, id, script[0], parses, decode) == Ok(p)
    ensures Shift(used, sent, PollSpec(apiToken, id, current, script, parses, decode))
      == Shift(used + 1, sent + SentBy(apiToken, id, script[0], parses),
               PollSpec(apiToken, id, p, script[1..], parses, decode))
  {
    var step := SentBy(apiToken, id, script[0], parses);
    var rest := PollSpec(apiToken, id, p, script[1..], parses, decode);
    assert PollSpec(apiToken, id, current, script, parses, decode) == Shift(1, step, rest);
    assert sent + (step + rest.sent) == (sent + step) + rest.sent;
  }

  /** The `while` loop of both view-model calls: poll `first.id` until a terminal status. */
  method Poll(
    apiToken: string, first: PredictionResponse, script: seq<Tick>,
    parses: string -> bool, decode: Data -> Option<PredictionResponse>)
    returns (run: PollRun)
    ensures run == PollSpec(apiToken, first.id, first, script, parses, decode)
    ensures IsTerminal(first.status) ==> run == PollRun(Settled(first), 0, [])
    ensures run.outcome.Settled? ==> IsTerminal(run.outcome.prediction.status)
    ensures forall k :: 0 <= k < |run.sent| ==> run.sent[k] == CheckRequest(apiToken, first.id)
    ensures run.outcome.Pending? ==> run.ticksUsed == |script|
  {
    var current := first;
    var used: nat := 0;
    var sent: seq<Request> := [];
    while !IsTerminal(current.status) && used < |script|
      invariant used <= |script|
      invariant PollSpec(apiToken, first.id, first, script, parses, decode)
        == Shift(used, sent, PollSpec(apiToken, first.id, current, script[used..], parses, decode))
      decreases |script| - used
    {
      var tick := script[used];
      var step := SentBy(apiToken, first.id, tick, parses);
      var fetched := FetchStep(apiToken, first.id, tick, parses, decode);
      if fetched.Err? {
        run := PollRun(Threw(fetched.error), used + 1, sent + step);
        PollSpecStopsAtFirstTerminal(apiToken, first.id, first, script, parses, decode);
        return;
      }
      assert script[used..][1..] == script[used + 1..];
      PollSpecUnfold(apiToken, first.id, current, script[used..], parses, decode, used, sent, fetched.value);
      sent := sent + step;
      current := fetched.value;
      used := used + 1;
    }
    if IsTerminal(current.status) {
      run := PollRun(Settled(current), used, sent);
      assert sent + [] == sent;
    } else {
      run := PollRun(Pending, used, sent);
      assert script[used..] == [];
      assert sent + [] == sent;
    }
    PollSpecStopsAtFirstTerminal(apiToken, first.id, first, script, parses, decode);
  }

  /** `outputs.compactMap { URL(string: $0) }`: the strings that parse, in order. */
  function CompactUrls(outputs: seq<string>, parses: string -> bool): (urls: seq<string>)
    ensures forall u :: u in urls <==> u in outputs && parses(u)
    ensures |urls| <= |outputs|
  {
    if |outputs| == 0 then []
    else if parses(outputs[0]) then [outputs[0]] + CompactUrls(outputs[1..], parses)
    else CompactUrls(outputs[1..], parses)
  }

  /** Dropping unparseable strings commutes with concatenation, so the order of the kept ones is preserved. */
  lemma {:induction false} CompactUrlsAppend(a: seq<string>, b: seq<string>, parses: string -> bool)
    ensures CompactUrls(a + b, parses) == CompactUrls(a, parses) + CompactUrls(b, parses)
    decreases |a|
  {
    if |a| == 0 {
      assert a + b == b;
    } else {
      assert (a + b)[0] == a[0];
      assert (a + b)[1..] == a[1..] + b;
      CompactUrlsAppend(a[1..], b, parses);
    }
  }

  /** When every string parses, nothing is dropped. */
  lemma {:induction false} CompactUrlsKeepsParsed(outputs: seq<string>, parses: string -> bool)
    requires forall k :: 0 <= k < |outputs| ==> parses(outputs[k])
    ensures CompactUrls(outputs, parses) == outputs
    decreases |outputs|
  {
    if |outputs| > 0 {
      CompactUrlsKeepsParsed(outputs[1..], parses);
    }
  }

  /** The state once the call has started: loading, previous error cleared. */
  function Enter(s: ViewState): (r: ViewState)
    ensures r.isLoading && r.error == None && r.generatedImages == s.generatedImages
  {
    s.(isLoading := true, error := None)
  }

  /** The `if let outputs … else if let error …` after the loop: output wins over
      error, and a prediction with neither changes nothing. */
  function Resolve(s: ViewState, p: PredictionResponse, parses: string -> bool): (r: ViewState)
    ensures r.isLoading == s.isLoading
    ensures p.output.Some? ==>
      r.error == s.error && r.generatedImages == CompactUrls(p.output.value, parses)
    ensures p.output.None? ==> r.generatedImages == s.generatedImages
    ensures p.output.None? && p.error.Some? ==> r.error == p.error
    ensures p.output.None? && p.error.None? ==> r == s
  {
    match p.output
    case Some(outputs) => s.(generatedImages := CompactUrls(outputs, parses))
    case None =>
      match p.error
      case Some(e) => s.(error := Some(e))
      case None => s
  }

  /** The state when the call returns (or, for `Pending`, while it is still in flight). */
  function Conclude(
    entered: ViewState, outcome: PollOutcome,
    parses: string -> bool, describe: Thrown -> string)
    : (r: ViewState)
    ensures r.isLoading <==> outcome.Pending? && entered.isLoading
    ensures outcome.Threw? ==>
      r.error == Some(describe(outcome.thrown)) && r.generatedImages == entered.generatedImages
    ensures outcome.Pending? ==> r == entered
    ensures outcome.Settled? ==>
      r == Resolve(entered, outcome.prediction, parses).(isLoading := false)
  {
    match outcome
    case Pending => entered
    case Threw(t) => entered.(error := Some(describe(t)), isLoading := false)
    case Settled(p) => Resolve(entered, p, parses).(isLoading := false)
  }

  /** The outcome of a whole call: a failed submission, or the poll loop's outcome
      for the submitted prediction. */
  function CallOutcome(
    apiToken: string, submitted: Result<PredictionResponse, Failure>, script: seq<Tick>,
    parses: string -> bool, decode: Data -> Option<PredictionResponse>)
    : PollOutcome
  {
    match submitted
    case Err(f) => Threw(ServiceThrew(f))
    case Ok(p) => PollSpec(apiToken, p.id, p, script, parses, decode).outcome
  }

  /** The body shared by both calls: enter, submit, poll, conclude. */
  method SubmitAndPoll(
    s: ViewState, apiToken: string, submission: Submission, script: seq<Tick>,
    parses: string -> bool, decode: Data -> Option<PredictionResponse>, describe: Thrown -> string)
    returns (r: ViewState, sent: seq<Request>)
    ensures r == Conclude(Enter(s), CallOutcome(apiToken, submission.result, script, parses, decode), parses, describe)
    ensures sent == submission.sent
      + (if submission.result.Ok?
         then PollSpec(apiToken, submission.result.value.id, submission.result.value, script, parses, decode).sent
         else [])
    ensures sent[..|submission.sent|] == submission.sent
    ensures submission.result.Ok? ==>
      forall k :: |submission.sent| <= k < |sent| ==> sent[k] == CheckRequest(apiToken, submission.result.value.id)
  {
    r := Enter(s);
    sent := submission.sent;
    var outcome: PollOutcome;
    match submission.result {
      case Err(f) =>
        outcome := Threw(ServiceThrew(f));
        assert sent + [] == sent;
      case Ok(prediction) =>
        var run := Poll(apiToken, prediction, script, parses, decode);
        assert forall k :: |sent| <= k < |sent + run.sent| ==> (sent + run.sent)[k] == run.sent[k - |sent|];
        assert (sent + run.sent)[..|sent|] == sent;
        sent := sent + run.sent;
        outcome := run.outcome;
    }
    assert outcome == CallOutcome(apiToken, submission.result, script, parses, decode);
    r := Conclude(r, outcome, parses, describe);
  }

  /** The contract both public calls keep, given what they submitted and its outcome. */
  predicate CallKeeps(
    s: ViewState, r: ViewState, sent: seq<Request>, apiToken: string, submission: Submission,
    script: seq<Tick>, parses: string -> bool, decode: Data -> Option<PredictionResponse>,
    describe: Thrown -> string, outcome: PollOutcome)
  {
    // isLoading stays true exactly while the call is still polling
    && (r.isLoading <==> outcome.Pending?)
    // a thrown error is published and the images are left alone
    && (outcome.Threw? ==> r.error == Some(describe(outcome.thrown)) && r.generatedImages == s.generatedImages)
    // the images change only by a terminal prediction that carries output
    && (r.generatedImages != s.generatedImages ==> outcome.Settled? && outcome.prediction.output.Some?)
    && (outcome.Settled? && outcome.prediction.output.Some? ==>
          r.error == None && r.generatedImages == CompactUrls(outcome.prediction.output.value, parses))
    // the previous error is always cleared; only the prediction's own error or a thrown one replaces it
    && (r.error.Some? ==> outcome.Threw? || (outcome.Settled? && outcome.prediction.output.None?
                                              && r.error == outcome.prediction.error))
    // the submission goes out first, then only status checks of the submitted id
    && |submission.sent| <= |sent| && sent[..|submission.sent|] == submission.sent
    && (submission.result.Ok? ==>
          forall k :: |submission.sent| <= k < |sent| ==> sent[k] == CheckRequest(apiToken, submission.result.value.id))
    // exactly the submission followed by the poll loop's checks
    && sent == submission.sent
         + (if submission.result.Ok?
            then PollSpec(apiToken, submission.result.value.id, submission.result.value, script, parses, decode).sent
            else [])
  }

  /** `generateDisposableImage(prompt:)`. */
  method GenerateDisposableImage(
    s: ViewState, apiToken: string, prompt: string, submitReply: Exchange, script: seq<Tick>,
    parses: string -> bool, decode: Data -> Option<PredictionResponse>, describe: Thrown -> string)
    returns (r: ViewState, sent: seq<Request>)
    ensures var submission := RunDisposableCamera(apiToken, prompt, parses, submitReply, decode);
      var outcome := CallOutcome(apiToken, submission.result, script, parses, decode);
      && r == Conclude(Enter(s), outcome, parses, describe)
      && CallKeeps(s, r, sent, apiToken, submission, script, parses, decode, describe, outcome)
    ensures parses(PredictionsUrl()) ==> |sent| >= 1 && sent[0] == DisposableCameraRequest(apiToken, prompt)
    ensures !parses(PredictionsUrl()) ==>
      sent == [] && r == s.(isLoading := false, error := Some(describe(ServiceThrew(Service(InvalidURL)))))
  {
    var submission := RunDisposableCamera(apiToken, prompt, parses, submitReply, decode);
    r, sent := SubmitAndPoll(s, apiToken, submission, script, parses, decode, describe);
    ConcludeKeeps(s, r, sent, apiToken, submission, script, parses, decode, describe);
  }

  /** `restoreImage(url:)`. */
  method RestoreImage(
    s: ViewState, apiToken: string, imageUrl: string, submitReply: Exchange, script: seq<Tick>,
    parses: string -> bool, decode: Data -> Option<PredictionResponse>, describe: Thrown -> string)
    returns (r: ViewState, sent: seq<Request>)
    ensures var submission := RunFaceRestoration(apiToken, imageUrl, parses, submitReply, decode);
      var outcome := CallOutcome(apiToken, submission.result, script, parses, decode);
      && r == Conclude(Enter(s), outcome, parses, describe)
      && CallKeeps(s, r, sent, apiToken, submission, script, parses, decode, describe, outcome)
    ensures parses(PredictionsUrl()) ==> |sent| >= 1 && sent[0] == FaceRestorationRequest(apiToken, imageUrl)
    ensures !parses(PredictionsUrl()) ==>
      sent == [] && r == s.(isLoading := false, error := Some(describe(ServiceThrew(Service(InvalidURL)))))
  {
    var submission := RunFaceRestoration(apiToken, imageUrl, parses, submitReply, decode);
    r, sent := SubmitAndPoll(s, apiToken, submission, script, parses, decode, describe);
    ConcludeKeeps(s, r, sent, apiToken, submission, script, parses, decode, describe);
  }

  /** Whatever a call submits, concluding its outcome keeps `CallKeeps`. */
  lemma ConcludeKeeps(
    s: ViewState, r: ViewState, sent: seq<Request>, apiToken: string, submission: Submission,
    script: seq<Tick>, parses: string -> bool, decode: Data -> Option<PredictionResponse>,
    describe: Thrown -> string)
    requires r == Conclude(Enter(s), CallOutcome(apiToken, submission.result, script, parses, decode), parses, describe)
    requires |submission.sent| <= |sent| && sent[..|submission.sent|] == submission.sent
    requires submission.result.Ok? ==>
      forall k :: |submission.sent| <= k < |sent| ==> sent[k] == CheckRequest(apiToken, submission.result.value.id)
    requires sent == submission.sent
      + (if submission.result.Ok?
         then PollSpec(apiToken, submission.result.value.id, submission.result.value, script, parses, decode).sent
         else [])
    ensures CallKeeps(s, r, sent, apiToken, submission, script, parses, decode, describe,
                      CallOutcome(apiToken, submission.result, script, parses, decode))
  {
  }

  /** There is no attempt ceiling: as long as every fetch returns a non-terminal status
      (any string other than the two exact terminal ones: Replicate's own
      "canceled" status included), the
      loop consumes the whole script and is still polling. */
  lemma {:induction false} NoAttemptCeiling(
    apiToken: string, id: string, current: PredictionResponse, script: seq<Tick>,
    parses: string -> bool, decode: Data -> Option<PredictionResponse>)
    requires !IsTerminal(current.status)
    requires forall k :: 0 <= k < |script| ==> KeepsPolling(FetchStep(apiToken, id, script[k], parses, decode))
    ensures PollSpec(apiToken, id, current, script, parses, decode).outcome == Pending
    ensures PollSpec(apiToken, id, current, script, parses, decode).ticksUsed == |script|
    decreases |script|
  {
    if |script| > 0 {
      var p := FetchStep(apiToken, id, script[0], parses, decode).value;
      forall k | 0 <= k < |script[1..]|
        ensures KeepsPolling(FetchStep(apiToken, id, script[1..][k], parses, decode))
      {
        assert script[1..][k] == script[k + 1];
      }
      NoAttemptCeiling(apiToken, id, p, script[1..], parses, decode);
    }
  }

  /** Submission answers "starting", the first check "processing", the second
      "succeeded" with one URL: two checks of the submitted id go out and the
      URL is published with no error. */
  lemma StartingProcessingSucceeded(s: ViewState, apiToken: string, parses: string -> bool, describe: Thrown -> string)
    requires parses(PredictionUrl("p1")) && parses("https://cdn/out.png")
    ensures
      var started := PredictionResponse("p1", "starting", None, None);
      var processing := PredictionResponse("p1", "processing", None, None);
      var done := PredictionResponse("p1", "succeeded", Some(["https://cdn/out.png"]), None);
      var decode := (d: Data) => if d == [1] then Some(processing) else if d == [2] then Some(done) else None;
      var script := [Tick(true, Received([1], HttpResponse(200))), Tick(true, Received([2], HttpResponse(200)))];
      var run := PollSpec(apiToken, "p1", started, script, parses, decode);
      && run == PollRun(Settled(done), 2, [CheckRequest(apiToken, "p1"), CheckRequest(apiToken, "p1")])
      && Conclude(Enter(s), run.outcome, parses, describe)
         == ViewState(["https://cdn/out.png"], false, None)
  {
  }
}

=== FILE: wrappers.dfy ===
/** Optional values and success-or-failure results, standing in for Swift's
    optionals and for `throws`. */
module Wrappers {

  /** Swift's `T?`: either `nil` or a wrapped value. */
  datatype Option<+T> = None | Some(value: T)

  /** The outcome of a throwing Swift call: the returned value or the thrown error. */
  datatype Result<+T, +E> = Ok(value: T) | Err(error: E)
}
